=== FILE: README.md ===
# st-match bookkeeping, modelled in Dafny

A Sublime Text plugin, `match`, searches one or all open views for a
pattern. It collects the hits into a results panel with one line per
(view, line) and lets the user step through them. Almost everything it
does is a call into the editor's API. This project models the parts that
have their own logic, all of them in `match.py`:

- `MatchHistory` (`history.dfy`). This is the prompt's pattern history:
  at most 100 entries, deduplicated against the newest entry, with a
  signed, wrapping recall cursor.
- `Match` (`matches.dfy`). One result line: its regions, its key
  (view id, line of the first region), and `merge`.
- `MatchStorage` (`storage.dfy`). An insertion-ordered map from key to
  match that merges matches on a line it has already seen.
- `Match.__format_line` (`format.dfy`). Renders `name:lineno: text`,
  dropping or shortening the file name. It comes with models of `%d` and
  of POSIX `os.path.splitext`.
- `MatchSearchCommand` (`search.dfy`). The search flags, the threshold in
  effect, and how the regions found in each view are aggregated into the
  store.
- `MatchNextCommand` (`navigation.dfy`). Row stepping with wrap-around,
  column clamping, and the lookup of the entry on the new row.

Shared pieces: `wrappers.dfy` (Option and Result) and `python.dfy`
(the exceptions raised and Python list indexing with negative positions).

Everything is a pure function over immutable datatypes. A view is an id
plus a function from text position to row. The regions a search finds,
the caret's row and column, the last row of the panel and row lengths are
all parameters, because they come from the editor.

Quirks of the code that the model keeps:
- `get(0)` reads through the cursor, not the oldest entry, because `0` is
  falsy.
- `get()` with no cursor on a non-empty history raises TypeError
  (`hist[None]`).
- `storage[i]` with a negative `i` uses Python negative indexing, and
  raises IndexError below `-len`.
- Rolling an empty history never wraps forward: the cursor goes 0, 1,
  2, … A backward roll from a cursor of at most 1 gives -1 (0 equals the
  length and -2 is below -0, so both wrap to -1); from a larger cursor it
  counts down.

## Model

| member | source | states |
|---|---|---|
| Python.Index | match.py:49 | Python list indexing: defined exactly on [-n, n), and the element it names is the index's Euclidean residue mod n |
| History.Insert | match.py:27-32 | a pattern equal to the newest entry changes nothing; any other pattern becomes the newest entry, clears the cursor, and the result is the newest min(len+1, 100) entries of the old list plus the pattern; validity is preserved |
| History.KeepNewest | match.py:31-32 | keeps exactly the newest min(len, 100) entries, as a suffix of the list |
| History.InsertTwiceSameAsOnce | match.py:27-28 | inserting the same pattern twice in a row has the same effect as inserting it once, so the history grows by at most one |
| History.InsertDropsOldestFirst | match.py:29-32 | on a full history a new pattern evicts exactly the oldest entry, and the others keep their order |
| History.Roll | match.py:34-41 | keeps the entries; from no cursor, forward gives 0 and backward gives -1; on a valid non-empty history forward from len-1 wraps to 0, backward from -len wraps to -1, and otherwise the cursor moves by one; on an empty history forward counts up from a non-negative cursor (a negative one restarts at 0), and backward from a cursor <= 1 gives -1 and from a larger one counts down; preserves validity, so the cursor stays in [-len, len) |
| History.RollNIsCyclic | match.py:34-41 | k rolls in one direction keep the history valid and move the cursor's position mod len by +k or -k, modulo len |
| History.RollForwardThenBackN | match.py:34-49 | k forward rolls followed by k backward rolls read the same entry as before, for every k |
| History.RollThenGetSucceeds | match.py:34-49 | on a valid non-empty history, the cursor left by any roll names an entry, so the following read cannot raise |
| History.RollIsCyclic | match.py:34-41 | with p the cursor's position mod len, a forward roll moves to (p+1) mod len and a backward roll to (p-1) mod len, wrapping at both ends |
| History.RollForwardThenBack | match.py:34-41 | forward then backward restores the cursor, except at the newest entry (len-1 comes back as -1); the entry read is always unchanged |
| History.RollBackThenForward | match.py:34-41 | backward then forward restores the cursor, except at the oldest entry (-len comes back as 0); the entry read is always unchanged |
| History.Get | match.py:46-49 | an empty history reads None; a missing or zero argument uses the cursor; a None cursor raises TypeError, an out-of-range position raises IndexError, and otherwise the result is the entry at the position mod len |
| History.GetZeroReadsCursor | match.py:46-48 | get(0) reads the same as get(), because 0 is falsy |
| History.LastIsGetMinusOne | match.py:43-49 | on every history last() is get(-1); both read None on an empty one |
| History.Last | match.py:43-44 | None exactly on an empty history, otherwise the newest entry |
| History.ResetIndex | match.py:51-52 | drops the cursor, keeps the entries, preserves validity |
| History.InitialValid | match.py:24-25 | the history starts empty with no cursor, which is valid |
| History.RecallNeverFails | match.py:58-65 | a key press in the prompt on a valid history never raises; it offers "" on an empty history, and right after a reset it offers the oldest (down) or newest (up) entry |
| History.Recall | match.py:58-65 | a key press leaves the history rolled one step, whether or not the read that follows succeeds; on a valid non-empty history it offers the entry at the new cursor's position mod len, and on an empty history it offers "" |
| Matches.NewMatch | match.py:74-80 | a missing view or empty region list raises ValueError; otherwise the match holds the regions and its key is (view id, row of the first region's start) |
| Matches.Merge | match.py:124-127 | the merged match keeps its key, view and threshold; its regions are its own followed by the other's |
| Matches.MergeOfNewMatches | match.py:124-127 | merging a match built from regions b into one built from regions a, in the same view with the same threshold, gives the match built from a followed by b |
| Matches.MergeAssociative | match.py:124-127 | merging is associative, so folding a line's matches in any grouping gives the same regions |
| Storage.Clear | match.py:166-168 | a cleared store is valid and lists no key |
| Storage.Add | match.py:173-178 | a key already present keeps the key list and domain, and its entry becomes the stored match merged with the new one; a new key is appended to the list and stored as given; every other entry is unchanged |
| Storage.AddPreservesValid | match.py:173-178 | adding keeps the key list duplicate-free and equal to the map's domain, and existing keys keep their positions |
| Storage.At | match.py:180-189 | an index at or past the end reads None; IndexError exactly below -len; a match read is the entry under the key at index mod len |
| Storage.ListedKeysAreStored | match.py:184-189 | in a valid store every in-range lookup yields the stored match, so the "key does not exist" branch is unreachable |
| Storage.AtNoneIffPastEnd | match.py:180-186 | in a valid store, for index >= 0, the lookup is None exactly when index >= number of keys |
| Storage.IsEmpty | match.py:170-171 | in a valid store, is_empty holds exactly when no key is listed |
| Storage.ClearedStoreIsEmpty | match.py:166-171 | after clear, is_empty holds and every non-negative lookup is None |
| Format.Decimal | match.py:146 | %d yields a non-empty digit string with no leading zero |
| Format.DecimalRoundTrip | match.py:146 | the numeral printed for a line number parses back to that number |
| Format.LastIndexOf | match.py:149 | the last position of a character, or -1; no later position holds it |
| Format.HasNonDot | match.py:149 | true exactly when the range holds a character other than '.' |
| Format.SplitExt | match.py:149 | root + extension == name; the extension is non-empty exactly when an extension exists (a last '.' after some non-dot character in the final component), and then it starts at that dot |
| Format.DisplayName | match.py:145-160 | no threshold shows the full name; a threshold below 5 omits the name, and only then; a root within the threshold shows the full name |
| Format.FormatLine | match.py:144-160 | "name:lineno: text" without a threshold, "lineno: text" under 5, otherwise the displayed name then ":lineno: text" |
| Format.Shorten | match.py:152-157 | the shortened name is exactly m + len(ext) characters: the first (m-3) div 2 characters of the root, "...", the root's last m-3-(m-3) div 2 characters, then the extension |
| Format.ShortenedNameShape | match.py:150-158 | a root longer than m is shown as root[..b] + "..." + root[-e..] + ext with b = (m-3) div 2, 1 <= e, b <= e <= b+1, b+3+e == m, so the shown name has m + len(ext) characters |
| Format.ShownRootWithinThreshold | match.py:149-160 | with a threshold m >= 5, the shown name without its extension never exceeds m characters |
| Search.SearchFlags | match.py:353-359 | a definition lookup is literal and case-sensitive; otherwise literal is "regex off" and ignore-case is "case sensitivity off" |
| Search.SearchFlagBits | match.py:353-359 | the mask holds the literal bit exactly when regexes are off or a definition is looked up, the ignore-case bit exactly when case sensitivity is off and no definition is looked up, and no other bit |
| Search.FlagBitsAgree | match.py:353-359 | the bit mask the code builds holds the literal bit exactly when the search is literal, the ignore-case bit exactly when it ignores case, and no other bit |
| Search.EffectiveMaxName | match.py:325-326 | searching all views uses the setting; a single-view search uses 0, which omits the name from every line |
| Search.Single | match.py:365 | each region found becomes a one-region match keyed by its view and line, carrying the view's id and the threshold in effect |
| Search.Collect | match.py:361-366 | adding a view's hits only appends keys and drops no entry; every region found has an entry for its line; every new entry belongs to this view and a line on which a region was found |
| Search.GroupStep | match.py:173-178 | adding a match whose line is k extends k's entry (or creates it) with the match's regions, so an entry built from earlier regions gains the new ones at its end |
| Search.CollectPreservesValid | match.py:361-366 | adding a view's hits keeps the store valid and only appends keys |
| Search.CollectGroupsByLine | match.py:361-366 | after a view's hits are added, the entry for (view, line) exists exactly when it did before or a hit is on that line; its regions are the earlier ones followed by all hits on that line, in the order found |
| Search.CollectLeavesOtherViews | match.py:361-366 | entries of other views are untouched |
| Search.CollectEmptyIff | match.py:361-366 | after one view's hits the store has no key exactly when it had none and the view had no hit |
| Search.NothingFoundSplit | match.py:334 | nothing is found in a list of views exactly when nothing is found in its front part and in its last view |
| Search.CollectAll | match.py:334 | searching every view in turn only appends keys and drops no entry; every region found in any view has an entry for its line, and every entry added is the (view, line) of some region found |
| Search.OnLineWitness | match.py:361-366 | a non-empty selection of a view's regions on a line comes from a region found at some position on that line |
| Search.FoundInGrows | match.py:334 | a key found in the front views, or on a hit line of the last view, is found in the whole list of views |
| Search.CollectAllGrows | match.py:332-334 | adding every view's hits keeps the store valid and only appends keys; the store ends with no key exactly when it had none and no view had a hit |
| Search.Run | match.py:320-351 | an empty pattern or no view leaves the store unchanged and jumps nowhere; otherwise the store holds exactly the (view, line) keys of the regions found, since it was cleared first; a jump goes to the match stored under the first listed key |
| Search.RunJumpsToFirstEntry | match.py:320-351 | a search with a pattern and at least one view leaves a valid store and jumps to a match exactly when some view had a hit, and then to the first listed entry |
| Search.RunWithoutPatternOrViews | match.py:321-328 | an empty pattern or empty view list returns before the store is cleared, so the store is unchanged |
| Navigation.StepRow | match.py:409-415 | from a row within [0, mr] the next row stays within [0, mr] |
| Navigation.StepRowIsCyclic | match.py:412-415 | from a row within [0, mr] a step lands on (r + 1) or (r - 1) modulo mr + 1 |
| Navigation.Column | match.py:416-418 | the new column is min(old column, row length) |
| Navigation.Navigate | match.py:407-425 | without a direction the caret stays; with one it steps rows and clamps the column; the row's entry is looked up |
| Navigation.StepRoundTrip | match.py:412-415 | forward then backward, and backward then forward, both return to the starting row |
| Navigation.StepWraps | match.py:412-415 | forward from the last row reaches row 0; backward from row 0 reaches the last row |
| Navigation.NavigateFindsEntry | match.py:407-427 | when the panel has one row per stored key, every landing inside the panel finds the entry listed on that row |

## Left out

- Every editor API call: views, windows, selections, region drawing, output panels, `show_panel`, viewport moves, `find_all` and `symbols`. These are foreign calls. The regions they produce are parameters.
- `MatchCommand` reads the selection, prompts for a pattern, records it with `History.Insert` and dispatches the search. `MatchDefinitionCommand` reads the selection and dispatches. `MatchShowPanel` only shows the panel. The prompt, the selection and the dispatch are editor calls.
- `Match.merge` with an argument that is not a Match raises ValueError. `Matches.Merge` takes a `Match`, so this case cannot be stated. The only caller, `MatchStorage.add`, always passes a Match.
- `MatchToggleSettingsCommand` and settings load/save. This is settings persistence owned by the editor.
- `MatchHideRegions`, and the history listener's focus test. The cursor reset itself is `History.ResetIndex`.
- Syntax-file generation and deletion. This is filesystem I/O.
- `Match.__str__` and `MatchStorage.__str__`. They depend on the view's text and name. The pure part is `Format.FormatLine`.
- `Match.__eq__`. It returns None for two matches, so it is not an equality. The store keys on tuples instead.
- `get_storage`, `remove_storage` and `__init_variable`. These are global-dictionary plumbing.
- Python artefacts. The class-level `hist` and `index` are shared between instances; a single history is modelled. A view with neither a name nor a file name is named by its integer id. With a threshold of 5 or more, `os.path.splitext` then raises on that int, so `str(storage)` fails and no panel is shown. The model treats every name as a string and does not model this failure.
- Storage rows in `MatchNextCommand` assume one panel row per key. This holds when every rendered line is non-empty and single-line, which depends on the editor's text. `Navigation.NavigateFindsEntry` takes it as a hypothesis.
- The file-name threshold is modelled as an optional integer. The code takes whatever the settings file holds. With a non-integer value such as `10.0`, `e` becomes a float, and slicing the root with it raises TypeError when a name is shortened.
- The editor's flag values LITERAL = 1 and IGNORECASE = 2 (used by `Search.SearchFlagBits`) are taken as given: the editor defines them, not the plugin.
- Format.SplitExt: models POSIX `splitext` with '/' as the separator. The Windows flavour, which also treats '\\' as a separator, is not modelled.

=== FILE: format.dfy ===
/** Rendering of one result line (Match.__format_line, match.py:144-160):
    `name:lineno: text`, with the file name dropped or shortened according
    to the threshold, plus the two library pieces it needs, `%d` and
    `os.path.splitext`. */
module Format {
  import opened Wrappers

  // ---------------------------------------------------------------------
  // `%d` on a natural number

  predicate IsDigit(c: char)
  {
    '0' <= c <= '9'
  }

  predicate AllDigits(s: string)
  {
    forall i :: 0 <= i < |s| ==> IsDigit(s[i])
  }

  function DigitChar(d: nat): (c: char)
    requires d < 10
    ensures IsDigit(c)
  {
    ('0' as int + d) as char
  }

  function DigitValue(c: char): (d: nat)
    requires IsDigit(c)
    ensures d < 10
  {
    c as int - '0' as int
  }

  /** The decimal numeral of n: digits only, with no leading zero. */
  function Decimal(n: nat): (r: string)
    ensures |r| >= 1 && AllDigits(r)
    ensures r[0] == '0' ==> n == 0
    decreases n
  {
    if n < 10 then [DigitChar(n)] else Decimal(n / 10) + [DigitChar(n % 10)]
  }

  /** The value of a numeral, most significant digit first. */
  function ParseDecimal(s: string): nat
    requires AllDigits(s)
  {
    if |s| == 0 then 0 else ParseDecimal(s[..|s| - 1]) * 10 + DigitValue(s[|s| - 1])
  }

  /** The numeral printed for a line number reads back as that number, so
      distinct line numbers are printed differently. */
  lemma {:induction false} DecimalRoundTrip(n: nat)
    ensures ParseDecimal(Decimal(n)) == n
    decreases n
  {
    var r := Decimal(n);
    if n >= 10 {
      DecimalRoundTrip(n / 10);
      assert r[..|r| - 1] == Decimal(n / 10);
    }
  }

  // ---------------------------------------------------------------------
  // `os.path.splitext` (POSIX flavour, separator '/')

  /** The last position of c in p, or -1 (Python's `str.rfind`). */
  function LastIndexOf(p: string, c: char): (r: int)
    ensures -1 <= r < |p|
    ensures r >= 0 ==> p[r] == c
    ensures forall j :: r < j < |p| ==> p[j] != c
  {
    if |p| == 0 then -1
    else if p[|p| - 1] == c then |p| - 1
    else LastIndexOf(p[..|p| - 1], c)
  }

  /** Whether p[lo..hi] holds a character other than '.' (the scan past
      leading dots in splitext). */
  function HasNonDot(p: string, lo: nat, hi: nat): (r: bool)
    requires lo <= hi <= |p|
    ensures r <==> exists j :: lo <= j < hi && p[j] != '.'
    decreases hi - lo
  {
    if lo == hi then false else p[lo] != '.' || HasNonDot(p, lo + 1, hi)
  }

  /** An extension of p starts at i: a '.' with no '.' or '/' after it and
      some character other than '.' and '/' before it in the same path
      component (so ".bashrc" and "..." have none). */
  ghost predicate ExtensionAt(p: string, i: int)
  {
    && 0 <= i < |p|
    && p[i] == '.'
    && (forall j :: i < j < |p| ==> p[j] != '.' && p[j] != '/')
    && (exists j :: 0 <= j < i && p[j] != '.' && p[j] != '/' && forall k :: j < k < i ==> p[k] != '/')
  }

  /** `os.path.splitext(p)`: the root and the extension, which together
      give p back; the extension is empty exactly when p has none. */
  function SplitExt(p: string): (r: (string, string))
    ensures r.0 + r.1 == p
    ensures r.1 != [] <==> exists i :: ExtensionAt(p, i)
    ensures r.1 != [] ==> ExtensionAt(p, |r.0|)
  {
    var sep := LastIndexOf(p, '/');
    var dot := LastIndexOf(p, '.');
    if dot > sep && HasNonDot(p, sep + 1, dot) then
      assert ExtensionAt(p, dot) by {
        var j :| sep + 1 <= j < dot && p[j] != '.';
        assert p[j] != '/';
      }
      (p[..dot], p[dot..])
    else
      assert forall i :: !ExtensionAt(p, i) by {
        forall i | ExtensionAt(p, i)
          ensures false
        {
          assert i == dot;
          var j :| 0 <= j < i && p[j] != '.' && p[j] != '/' && forall k :: j < k < i ==> p[k] != '/';
        }
      }
      (p, [])
  }

  // ---------------------------------------------------------------------
  // The result line

  /** The shortened form of a file name whose root is longer than the
      threshold m: the first b and last e characters of the root around
      "...", then the extension. */
  function Shorten(root: string, ext: string, m: int): (r: string)
    requires 5 <= m < |root|
    ensures |r| == m + |ext|
    ensures r[m..] == ext
    ensures r[..(m - 3) / 2] == root[..(m - 3) / 2]
    ensures r[(m - 3) / 2..(m - 3) / 2 + 3] == "..."
    ensures r[(m - 3) / 2 + 3..m] == root[|root| - (m - 3 - (m - 3) / 2)..]
  {
    var b := (m - 3) / 2;
    var e := m - b - 3;
    root[..b] + "..." + root[|root| - e..] + ext
  }

  /** The name shown before the line number, None when it is omitted: the
      full name without a threshold, no name under a threshold below 5,
      otherwise the name, shortened when its root exceeds the threshold. */
  function DisplayName(maxName: Option<int>, name: string): (r: Option<string>)
    ensures maxName.None? ==> r == Some(name)
    ensures r.None? <==> maxName.Some? && maxName.value < 5
    ensures maxName.Some? && maxName.value >= 5 && |SplitExt(name).0| <= maxName.value ==> r == Some(name)
  {
    if maxName.None? then Some(name)
    else if maxName.value < 5 then None
    else
      var (root, ext) := SplitExt(name);
      if |root| > maxName.value then Some(Shorten(root, ext, maxName.value)) else Some(name)
  }

  /** `__format_line(name, lineno, text)`. */
  function FormatLine(maxName: Option<int>, name: string, lineno: nat, text: string): (r: string)
    ensures maxName.None? ==> r == name + ":" + Decimal(lineno) + ": " + text
    ensures maxName.Some? && maxName.value < 5 ==> r == Decimal(lineno) + ": " + text
    ensures maxName.Some? && maxName.value >= 5 ==>
      r == DisplayName(maxName, name).value + ":" + Decimal(lineno) + ": " + text
  {
    match DisplayName(maxName, name)
    case None => Decimal(lineno) + ": " + text
    case Some(shown) => shown + ":" + Decimal(lineno) + ": " + text
  }

  /** The shortening identity: a root longer than the threshold m keeps a
      prefix of b = (m - 3) div 2 characters and a non-empty suffix of e
      characters, with b + 3 + e == m and e - b either 0 or 1; the
      extension is kept whole, so the shown name is exactly m characters
      plus the extension. */
  lemma ShortenedNameShape(m: int, name: string)
    requires m >= 5 && |SplitExt(name).0| > m
    ensures var (root, ext) := SplitExt(name);
      var b := (m - 3) / 2;
      var e := m - 3 - b;
        && 0 <= b && 1 <= e && b <= e <= b + 1
        && e <= |root|
        && DisplayName(Some(m), name) == Some(root[..b] + "..." + root[|root| - e..] + ext)
    ensures |DisplayName(Some(m), name).value| == m + |SplitExt(name).1|
  {
    var (root, ext) := SplitExt(name);
    var b: nat := (m - 3) / 2;
    var e: nat := m - b - 3;
    assert DisplayName(Some(m), name) == Some(root[..b] + "..." + root[|root| - e..] + ext);
  }

  /** Whenever a threshold m >= 5 is set, the root part of the shown name
      is at most m characters (the name is shown whole only if it fits). */
  lemma ShownRootWithinThreshold(m: int, name: string)
    requires m >= 5
    ensures var ext := SplitExt(name).1;
      |DisplayName(Some(m), name).value| <= (if |SplitExt(name).0| <= m then |name| else m + |ext|)
    ensures |DisplayName(Some(m), name).value| - |SplitExt(name).1| <= m
  {
    if |SplitExt(name).0| > m {
      ShortenedNameShape(m, name);
    }
  }
}

=== FILE: history.dfy ===
/** The pattern history of the search prompt (MatchHistory, match.py:23-52):
    at most `Capacity` entries, deduplicated against the newest one, with a
    Python-style signed cursor that the up/down keys roll through. */
module History {
  import opened Wrappers
  import opened Python

  /** The hard cap on retained entries. */
  const Capacity: nat := 100

  /** `hist` holds the entries oldest first; `index` is the recall cursor,
      None when the user is not recalling. */
  datatype MatchHistory = MatchHistory(hist: seq<string>, index: Option<int>)

  /** The history as the plugin creates it when it loads. */
  function Initial(): MatchHistory
  {
    MatchHistory([], None)
  }

  /** The invariant of every reachable history: within the cap, and a
      cursor into a non-empty history names an entry. (On an empty history
      forward rolls count 0, 1, 2, ... without wrapping, while backward
      rolls from a cursor <= 1 give -1 and from a larger one count down;
      no entry can be read then.) */
  predicate Valid(h: MatchHistory)
  {
    && |h.hist| <= Capacity
    && (|h.hist| > 0 && h.index.Some? ==> -|h.hist| <= h.index.value < |h.hist|)
  }

  /** The newest entry, None for an empty history. */
  function Last(h: MatchHistory): (r: Option<string>)
    ensures r.None? <==> |h.hist| == 0
    ensures r.Some? ==> r.value == h.hist[|h.hist| - 1]
  {
    if |h.hist| == 0 then None else Some(h.hist[|h.hist| - 1])
  }

  /** The newest `Capacity` entries of `s` (Python's `s[-100:]` once the
      list is longer than 100). */
  function KeepNewest(s: seq<string>): (r: seq<string>)
    ensures |r| == if |s| > Capacity then Capacity else |s|
    ensures r == s[|s| - |r|..]
  {
    if |s| > Capacity then s[|s| - Capacity..] else s
  }

  /** Records a submitted pattern. A pattern equal to the newest entry
      changes nothing; any other is appended, the cursor is dropped and the
      oldest entries beyond the cap are discarded. */
  function Insert(h: MatchHistory, v: string): (r: MatchHistory)
    ensures Last(h) == Some(v) ==> r == h
    ensures Last(h) != Some(v) ==>
      && r.index.None?
      && Last(r) == Some(v)
      && |r.hist| == (if |h.hist| + 1 > Capacity then Capacity else |h.hist| + 1)
      && r.hist == (h.hist + [v])[|h.hist| + 1 - |r.hist|..]
    ensures Valid(h) ==> Valid(r)
  {
    if |h.hist| == 0 || v != h.hist[|h.hist| - 1] then
      var kept := KeepNewest(h.hist + [v]);
      assert kept[|kept| - 1] == v;
      MatchHistory(kept, None)
    else
      h
  }

  /** Moves the cursor one step, forward (towards newer positions) or
      backwards, starting at 0 or -1 when there is none, and wrapping when
      it leaves [-len, len) or hits len. */
  function Roll(h: MatchHistory, backwards: bool): (r: MatchHistory)
    ensures r.hist == h.hist && r.index.Some?
    ensures h.index.None? ==> r.index.value == (if backwards then -1 else 0)
    ensures Valid(h) && |h.hist| > 0 && h.index.Some? && !backwards ==>
      r.index.value == (if h.index.value == |h.hist| - 1 then 0 else h.index.value + 1)
    ensures Valid(h) && |h.hist| > 0 && h.index.Some? && backwards ==>
      r.index.value == (if h.index.value == -|h.hist| then -1 else h.index.value - 1)
    ensures |h.hist| == 0 && h.index.Some? && !backwards ==>
      r.index.value == (if h.index.value >= 0 then h.index.value + 1 else 0)
    ensures |h.hist| == 0 && h.index.Some? && h.index.value <= 0 && backwards ==>
      r.index.value == -1
    ensures |h.hist| == 0 && h.index.Some? && h.index.value > 0 && backwards ==>
      r.index.value == (if h.index.value == 1 then -1 else h.index.value - 1)
    ensures Valid(h) ==> Valid(r)
  {
    var step := if backwards then -1 else 1;
    var start := if backwards then -1 else 0;
    var i := if h.index.None? then start else h.index.value + step;
    var wrapped := if i == |h.hist| || i < -|h.hist| then start else i;
    MatchHistory(h.hist, Some(wrapped))
  }

  /** Reads an entry. A missing or zero argument (both falsy in Python)
      falls back to the cursor. An empty history reads as None; a None
      cursor raises TypeError and a position outside [-len, len) raises
      IndexError. */
  function Get(h: MatchHistory, arg: Option<int>): (r: Result<Option<string>, Fault>)
    ensures |h.hist| == 0 ==> r == Success(None)
    ensures var i := if arg == None || arg == Some(0) then h.index else arg;
      && (r.Failure? <==> |h.hist| > 0 && (i.None? || !(-|h.hist| <= i.value < |h.hist|)))
      && (r.Failure? ==> r.error == (if i.None? then TypeError else IndexError))
      && (r.Success? && |h.hist| > 0 ==> r.value == Some(h.hist[i.value % |h.hist|]))
  {
    var i := if arg.None? || arg.value == 0 then h.index else arg;
    if |h.hist| == 0 then Success(None)
    else if i.None? then Failure(TypeError)
    else match Index(|h.hist|, i.value)
      case None => Failure(IndexError)
      case Some(j) => Success(Some(h.hist[j]))
  }

  /** Forgets the cursor (done when the prompt loses focus). */
  function ResetIndex(h: MatchHistory): (r: MatchHistory)
    ensures r.hist == h.hist && r.index.None?
    ensures Valid(h) ==> Valid(r)
  {
    MatchHistory(h.hist, None)
  }

  /** The effect of one up/down key press in the prompt: roll the cursor,
      then read the entry under it, an empty suggestion standing for None
      (MatchHistoryCommand.run). The rolled history is kept even when the
      read raises. */
  datatype Recalled = Recalled(history: MatchHistory, suggestion: Result<string, Fault>)

  function Recall(h: MatchHistory, backwards: bool): (r: Recalled)
    ensures r.history == Roll(h, backwards)
    ensures Valid(h) && |h.hist| > 0 ==>
      r.suggestion == Success(h.hist[r.history.index.value % |h.hist|])
    ensures |h.hist| == 0 ==> r.suggestion == Success("")
  {
    var h' := Roll(h, backwards);
    match Get(h', None)
    case Failure(e) => Recalled(h', Failure(e))
    case Success(None) => Recalled(h', Success(""))
    case Success(Some(s)) => Recalled(h', Success(s))
  }

  // ---------------------------------------------------------------------
  // Properties

  /** The initial history is valid; with the preservation clauses of
      Insert, Roll and ResetIndex this makes Valid hold of every history
      the plugin can reach. */
  lemma InitialValid()
    ensures Valid(Initial()) && Initial().hist == [] && Initial().index.None?
  {
  }

  /** Submitting the same pattern twice in a row never grows the history. */
  lemma InsertTwiceSameAsOnce(h: MatchHistory, v: string)
    ensures Insert(Insert(h, v), v) == Insert(h, v)
    ensures |Insert(Insert(h, v), v).hist| <= |h.hist| + 1
  {
  }

  /** On a full history a new pattern evicts exactly the oldest entry: the
      others keep their order and the new one becomes the newest. */
  lemma InsertDropsOldestFirst(h: MatchHistory, v: string)
    requires Valid(h) && Last(h) != Some(v) && |h.hist| == Capacity
    ensures Insert(h, v).hist == h.hist[1..] + [v]
  {
  }

  /** With a non-empty valid history every roll leaves a cursor that names
      an entry, so the following read cannot raise. */
  lemma RollThenGetSucceeds(h: MatchHistory, backwards: bool)
    requires Valid(h) && |h.hist| > 0
    ensures var r := Roll(h, backwards);
      -|h.hist| <= r.index.value < |h.hist| && Get(r, None).Success? && Get(r, None).value.Some?
  {
  }

  /** Rolling is cyclic over the entries: with cursor position p (Python's
      index taken modulo the length), a forward roll moves to p + 1 and a
      backward roll to p - 1, both modulo the length; so forward from the
      newest entry reaches the oldest and backward from the oldest reaches
      the newest. */
  lemma RollIsCyclic(h: MatchHistory, backwards: bool)
    requires Valid(h) && |h.hist| > 0 && h.index.Some?
    ensures var n := |h.hist|;
      Roll(h, backwards).index.value % n == (h.index.value % n + (if backwards then -1 else 1)) % n
  {
    var n := |h.hist|;
    var i := h.index.value;
    var j := Roll(h, backwards).index.value;
    ModNear(i, n);
    ModNear(j, n);
    ModNear(i % n + (if backwards then -1 else 1), n);
  }

  /** A forward roll undone by a backward one restores the cursor, except
      across the wrap from the newest entry, where the cursor comes back as
      -1 rather than len - 1; both name the newest entry, so the entry read
      is always the same. */
  lemma RollForwardThenBack(h: MatchHistory)
    requires Valid(h) && |h.hist| > 0 && h.index.Some?
    ensures h.index.value != |h.hist| - 1 ==> Roll(Roll(h, false), true) == h
    ensures Get(Roll(Roll(h, false), true), None) == Get(h, None)
  {
  }

  /** A backward roll undone by a forward one restores the cursor, except
      across the wrap from the oldest entry (-len comes back as 0); the
      entry read is always the same. */
  lemma RollBackThenForward(h: MatchHistory)
    requires Valid(h) && |h.hist| > 0 && h.index.Some?
    ensures h.index.value != -|h.hist| ==> Roll(Roll(h, true), false) == h
    ensures Get(Roll(Roll(h, true), false), None) == Get(h, None)
  {
  }

  /** k rolls in the same direction. */
  function RollN(h: MatchHistory, k: nat, backwards: bool): MatchHistory
    decreases k
  {
    if k == 0 then h else Roll(RollN(h, k - 1, backwards), backwards)
  }

  /** k rolls move the cursor's position k entries forward or backward,
      cyclically: from position p it lands on (p + k) or (p - k) modulo
      the length, and the history stays valid. */
  lemma {:induction false} RollNIsCyclic(h: MatchHistory, k: nat, backwards: bool)
    requires Valid(h) && |h.hist| > 0 && h.index.Some?
    ensures var r := RollN(h, k, backwards);
      var n := |h.hist|;
      && Valid(r) && r.hist == h.hist && r.index.Some?
      && r.index.value % n == (h.index.value % n + (if backwards then -(k as int) else k)) % n
    decreases k
  {
    var n := |h.hist|;
    var p := h.index.value % n;
    if k == 0 {
      ModNear(p, n);
    } else {
      var d := if backwards then -1 else 1;
      var prev := RollN(h, k - 1, backwards);
      RollNIsCyclic(h, k - 1, backwards);
      RollIsCyclic(prev, backwards);
      ModShift(p + (k - 1) * d, n, d);
    }
  }

  /** Rolling forward k times and then backward k times reads the same
      entry as before, whatever k (the cursor itself may come back as the
      other name of that entry, -1 for len - 1 or 0 for -len). */
  lemma RollForwardThenBackN(h: MatchHistory, k: nat)
    requires Valid(h) && |h.hist| > 0 && h.index.Some?
    ensures Get(RollN(RollN(h, k, false), k, true), None) == Get(h, None)
  {
    var n := |h.hist|;
    var p := h.index.value % n;
    var f := RollN(h, k, false);
    var g := RollN(f, k, true);
    RollNIsCyclic(h, k, false);
    assert f.index.value % n == (p + k) % n;
    RollNIsCyclic(f, k, true);
    assert g.index.value % n == ((p + k) % n - k) % n;
    ModShift(p + k, n, -(k as int));
    ModUnique(p, n, 0, p);
    assert g.index.value % n == p;
  }

  /** `get(0)` does not read the oldest entry: 0 is falsy, so it reads
      through the cursor exactly as `get()` does. */
  lemma GetZeroReadsCursor(h: MatchHistory)
    ensures Get(h, Some(0)) == Get(h, None)
  {
  }

  /** `last()` agrees with `get(-1)` on every non-empty history. */
  lemma LastIsGetMinusOne(h: MatchHistory)
    ensures Get(h, Some(-1)) == Success(Last(h))
  {
  }

  /** A key press in the prompt of a valid history never raises: it offers
      the entry under the rolled cursor, or an empty suggestion when there
      are no entries; the first press after a reset offers the oldest entry
      (down) or the newest (up). */
  lemma RecallNeverFails(h: MatchHistory, backwards: bool)
    requires Valid(h)
    ensures var r := Recall(h, backwards);
      && r.suggestion.Success?
      && (|h.hist| == 0 ==> r.suggestion.value == "")
      && (|h.hist| > 0 && h.index.None? ==>
            r.suggestion.value == (if backwards then h.hist[|h.hist| - 1] else h.hist[0]))
  {
    if |h.hist| > 0 {
      RollThenGetSucceeds(h, backwards);
    }
  }
}

=== FILE: matches.dfy ===
/** One search result line (class Match, match.py:73-127): the regions found
    on one line of one view, keyed by that view and line. The view is seen
    only through its id and the row each text position falls on. */
module Matches {
  import opened Wrappers
  import opened Python

  /** A span of text in a view, from `begin` to `end`. */
  datatype Region = Region(begin: nat, end: nat)

  /** An open view: its id and the row (0-based) of every text position. */
  datatype View = View(id: int, lineOf: nat -> nat)

  /** The storage key of a match: the view and the row of its first region. */
  datatype Key = Key(viewId: int, line: nat)

  /** A match: its view, its regions in the order found, its key and the
      file-name shortening threshold it is rendered with. */
  datatype Match = Match(viewId: int, regions: seq<Region>, key: Key, maxName: Option<int>)

  /** `Match(view, regions, max_name)`: a missing view or an empty region
      list raises ValueError; otherwise the key is the view's id with the
      row of the first region's start. */
  function NewMatch(view: Option<View>, regions: seq<Region>, maxName: Option<int>): (r: Result<Match, Fault>)
    ensures r.Success? <==> view.Some? && |regions| > 0
    ensures r.Failure? ==> r.error == ValueError
    ensures r.Success? ==>
      && r.value.regions == regions
      && r.value.viewId == view.value.id
      && r.value.key == Key(view.value.id, view.value.lineOf(regions[0].begin))
      && r.value.maxName == maxName
  {
    if view.None? || |regions| == 0 then Failure(ValueError)
    else Success(Match(view.value.id, regions, Key(view.value.id, view.value.lineOf(regions[0].begin)), maxName))
  }

  /** `m.merge(o)`: m keeps its view, key and threshold and gains o's
      regions after its own. */
  function Merge(m: Match, o: Match): (r: Match)
    ensures r.key == m.key && r.viewId == m.viewId && r.maxName == m.maxName
    ensures |r.regions| == |m.regions| + |o.regions|
    ensures r.regions[..|m.regions|] == m.regions && r.regions[|m.regions|..] == o.regions
  {
    m.(regions := m.regions + o.regions)
  }

  /** Merging a match built from regions b into one built from regions a,
      in the same view with the same threshold, gives the match built from
      a followed by b: merge only ever extends the first match. */
  lemma MergeOfNewMatches(v: View, a: seq<Region>, b: seq<Region>, maxName: Option<int>)
    requires |a| > 0 && |b| > 0
    ensures Merge(NewMatch(Some(v), a, maxName).value, NewMatch(Some(v), b, maxName).value)
      == NewMatch(Some(v), a + b, maxName).value
  {
  }

  /** Merging is associative, so folding a run of same-line matches into
      the first one in any grouping gives the same regions. */
  lemma MergeAssociative(a: Match, b: Match, c: Match)
    ensures Merge(Merge(a, b), c) == Merge(a, Merge(b, c))
  {
    assert (a.regions + b.regions) + c.regions == a.regions + (b.regions + c.regions);
  }
}

=== FILE: navigation.dfy ===
/** Moving through the result panel (MatchNextCommand.run,
    match.py:407-427): the caret steps to the next or previous row,
    wrapping at both ends, keeps its column where the new row allows, and
    the match listed on that row is looked up in the store. */
module Navigation {
  import opened Wrappers
  import opened Python
  import opened Matches
  import opened Storage

  /** The row after a step from row r in a panel whose last row is mr. */
  function StepRow(r: nat, mr: nat, forward: bool): (nr: nat)
    ensures r <= mr ==> nr <= mr
  {
    if forward then (r + 1) % (mr + 1)
    else if r > 0 then r - 1 else mr
  }

  /** The caret column on a row of the given length: the old column,
      pulled back to the end of the row when the row is shorter. */
  function Column(c: nat, lineLength: nat): (nc: nat)
    ensures nc <= c && nc <= lineLength
    ensures nc == c || nc == lineLength
  {
    if c > lineLength then lineLength else c
  }

  /** Where the caret lands and which stored entry that row names. */
  datatype Landing = Landing(row: nat, col: nat, target: Result<Option<Match>, Fault>)

  /** One invocation: without a direction the caret stays; with one it
      steps rows. Either way the entry for the caret's row is looked up. */
  function Navigate(s: MatchStorage, r: nat, c: nat, mr: nat, lineLength: nat -> nat, forward: Option<bool>): (l: Landing)
    ensures forward.None? ==> l.row == r && l.col == c
    ensures forward.Some? ==> l.row == StepRow(r, mr, forward.value)
    ensures forward.Some? ==> l.col == Column(c, lineLength(l.row))
    ensures l.target == At(s, l.row)
  {
    match forward
    case None => Landing(r, c, At(s, r))
    case Some(fwd) =>
      var nr := StepRow(r, mr, fwd);
      Landing(nr, Column(c, lineLength(nr)), At(s, nr))
  }

  // ---------------------------------------------------------------------
  // Properties

  /** Stepping is cyclic over the panel's rows: the new row is r + 1 or
      r - 1 taken modulo the number of rows. */
  lemma StepRowIsCyclic(r: nat, mr: nat, forward: bool)
    requires r <= mr
    ensures StepRow(r, mr, forward) == (r + (if forward then 1 else -1)) % (mr + 1)
  {
    ModNear(r + (if forward then 1 else -1), mr + 1);
  }

  /** Stepping forward then backward, or backward then forward, returns to
      the row started from. */
  lemma StepRoundTrip(r: nat, mr: nat)
    requires r <= mr
    ensures StepRow(StepRow(r, mr, true), mr, false) == r
    ensures StepRow(StepRow(r, mr, false), mr, true) == r
  {
    ModNear(r + 1, mr + 1);
    ModNear(mr + 1, mr + 1);
  }

  /** Stepping forward from the last row reaches the first; stepping
      backward from the first reaches the last. */
  lemma StepWraps(mr: nat)
    ensures StepRow(mr, mr, true) == 0
    ensures StepRow(0, mr, false) == mr
  {
  }

  /** When the panel lists one row per stored key, every landing within the
      panel names the entry listed on its row, never None. */
  lemma NavigateFindsEntry(s: MatchStorage, r: nat, c: nat, mr: nat, lineLength: nat -> nat, forward: Option<bool>)
    requires Valid(s) && |s.keys| == mr + 1 && r <= mr
    ensures var l := Navigate(s, r, c, mr, lineLength, forward);
      l.row <= mr && l.target == Success(Some(s.storage[s.keys[l.row]]))
  {
    var l := Navigate(s, r, c, mr, lineLength, forward);
    ListedKeysAreStored(s, l.row);
  }
}

=== FILE: python.dfy ===
/** The two pieces of Python semantics the plugin leans on: the exceptions it
    can raise and list indexing with negative positions. */
module Python {
  import opened Wrappers

  /** Exceptions the modelled code can raise. */
  datatype Fault =
    | IndexError   // a list index outside [-len, len)
    | TypeError    // a list indexed by None
    | ValueError   // a Match built without a view or without regions

  /** Python list indexing: a position in [-n, n) names an element, counted
      from the end when negative; any other position raises IndexError
      (reported here as None). The element named is the Euclidean residue. */
  function Index(n: nat, i: int): (r: Option<nat>)
    ensures r.Some? <==> -(n as int) <= i < n
    ensures r.Some? ==> r.value < n && r.value == i % n
  {
    if 0 <= i < n then Some(i)
    else if -(n as int) <= i < 0 then Some(n + i)
    else None
  }

  /** Euclidean modulo near the range: a position in [-n, n) is its own
      residue when non-negative and counts back from n when negative; n
      itself wraps to 0. */
  lemma ModNear(x: int, n: int)
    requires 0 < n && -n <= x <= n
    ensures x % n == (if x == n then 0 else if x >= 0 then x else x + n)
  {
    var q := x / n;
    var r := x % n;
    assert x == q * n + r && 0 <= r < n;
    if x == n {
      assert (q - 1) * n == -r;
    } else if x >= 0 {
      assert q * n == x - r;
    } else {
      assert (q + 1) * n == x + n - r;
    }
  }

  /** Taking the residue before adding an offset does not change the
      residue of the sum. */
  lemma ModShift(x: int, n: int, d: int)
    requires 0 < n
    ensures (x % n + d) % n == (x + d) % n
  {
    var q := x / n;
    var y := x % n + d;
    var a := y / n;
    var b := y % n;
    assert x == q * n + x % n;
    assert y == a * n + b && 0 <= b < n;
    assert x + d == (q + a) * n + b;
    ModUnique(x + d, n, q + a, b);
  }

  /** A remainder in [0, n) with some quotient is the Euclidean residue. */
  lemma ModUnique(z: int, n: int, q: int, r: int)
    requires 0 < n && 0 <= r < n && z == q * n + r
    ensures z % n == r
  {
    var q' := z / n;
    var r' := z % n;
    assert z == q' * n + r' && 0 <= r' < n;
    assert (q - q') * n == r' - r;
    MulAwayFromZero(q - q', n);
  }

  /** A non-zero multiple of n is at least n away from zero. */
  lemma MulAwayFromZero(d: int, n: int)
    requires 0 < n
    ensures d >= 1 ==> d * n >= n
    ensures d <= -1 ==> d * n <= -n
  {
    if d >= 1 {
      assert d * n == (d - 1) * n + n;
      assert (d - 1) * n >= 0;
    } else if d <= -1 {
      assert d * n == -((-d - 1) * n) - n;
      assert (-d - 1) * n >= 0;
    }
  }
}

=== FILE: search.dfy ===
/** The bookkeeping of a search (MatchSearchCommand, match.py:320-366): the
    search flags, the file-name threshold in effect, and the aggregation of
    the regions found in each view into the window's store, one entry per
    (view, line). Finding the regions is the editor's job; they are given. */
module Search {
  import opened Wrappers
  import opened Matches
  import opened Storage
  import Format

  /** The two flags the plugin passes to the editor's find: match the
      pattern literally, and ignore case. */
  datatype Flags = Flags(literal: bool, ignoreCase: bool)

  /** `__search_flags(definition)`: literal unless regexes are enabled,
      case-insensitive unless case sensitivity is enabled; a definition
      lookup is always literal and case-sensitive. */
  function SearchFlags(useRegex: bool, caseSensitive: bool, definition: bool): (r: Flags)
    ensures definition ==> r == Flags(true, false)
    ensures !definition ==> r.literal == !useRegex && r.ignoreCase == !caseSensitive
  {
    Flags(!useRegex || definition, !caseSensitive && !definition)
  }

  /** The editor's find-flag bits for a literal and a case-insensitive
      search. */
  const LiteralBit: bv8 := 1
  const IgnoreCaseBit: bv8 := 2

  /** `__search_flags` as the code computes it: start from no flag and OR
      in each bit whose condition holds. */
  function SearchFlagBits(useRegex: bool, caseSensitive: bool, definition: bool): (r: bv8)
    ensures r & LiteralBit != 0 <==> !useRegex || definition
    ensures r & IgnoreCaseBit != 0 <==> !caseSensitive && !definition
    ensures r & !(LiteralBit | IgnoreCaseBit) == 0
  {
    var flags: bv8 := 0;
    var flags := if !useRegex || definition then flags | LiteralBit else flags;
    if !caseSensitive && !definition then flags | IgnoreCaseBit else flags
  }

  /** The bit mask the code builds carries exactly the two flags
      SearchFlags describes, and no other bit. */
  lemma FlagBitsAgree(useRegex: bool, caseSensitive: bool, definition: bool)
    ensures var bits := SearchFlagBits(useRegex, caseSensitive, definition);
      var flags := SearchFlags(useRegex, caseSensitive, definition);
      && (bits & LiteralBit != 0 <==> flags.literal)
      && (bits & IgnoreCaseBit != 0 <==> flags.ignoreCase)
      && bits & !(LiteralBit | IgnoreCaseBit) == 0
  {
  }

  /** The threshold a search renders names with: the setting when searching
      all open views, otherwise 0, which drops the name (match.py:325-326). */
  function EffectiveMaxName(allViews: bool, setting: Option<int>): (r: Option<int>)
    ensures allViews ==> r == setting
    ensures !allViews ==> forall name :: Format.DisplayName(r, name).None?
  {
    if allViews then setting else Some(0)
  }

  /** The one-region match for a region found in a view. */
  function Single(v: View, region: Region, maxName: Option<int>): (m: Match)
    ensures m.key == Key(v.id, v.lineOf(region.begin)) && m.regions == [region]
    ensures m.viewId == v.id && m.maxName == maxName
  {
    NewMatch(Some(v), [region], maxName).value
  }

  /** `__search` for one view: each region found becomes a one-region match,
      added to the store in the order found. */
  function Collect(s: MatchStorage, v: View, found: seq<Region>, maxName: Option<int>): (r: MatchStorage)
    ensures |r.keys| >= |s.keys| && r.keys[..|s.keys|] == s.keys
    ensures s.storage.Keys <= r.storage.Keys
    ensures forall i :: 0 <= i < |found| ==> Key(v.id, v.lineOf(found[i].begin)) in r.storage
    ensures forall k :: k in r.storage && k !in s.storage ==> k.viewId == v.id && |OnLine(v, found, k.line)| > 0
    decreases |found|
  {
    if |found| == 0 then s
    else
      var init := found[..|found| - 1];
      var t := Collect(s, v, init, maxName);
      var r := Add(t, Single(v, found[|found| - 1], maxName));
      assert r.keys[..|s.keys|] == r.keys[..|t.keys|][..|s.keys|];
      assert forall i :: 0 <= i < |init| ==> init[i] == found[i];
      r
  }

  /** The regions of `found` lying on the given line of v, in order. */
  function OnLine(v: View, found: seq<Region>, line: nat): seq<Region>
    decreases |found|
  {
    if |found| == 0 then []
    else
      var last := found[|found| - 1];
      OnLine(v, found[..|found| - 1], line) + (if v.lineOf(last.begin) == line then [last] else [])
  }

  /** Collecting keeps the store valid and only appends keys. */
  lemma {:induction false} CollectPreservesValid(s: MatchStorage, v: View, found: seq<Region>, maxName: Option<int>)
    requires Valid(s)
    ensures var t := Collect(s, v, found, maxName);
      Valid(t) && |t.keys| >= |s.keys| && t.keys[..|s.keys|] == s.keys
    decreases |found|
  {
    if |found| > 0 {
      var t0 := Collect(s, v, found[..|found| - 1], maxName);
      CollectPreservesValid(s, v, found[..|found| - 1], maxName);
      AddPreservesValid(t0, Single(v, found[|found| - 1], maxName));
      var t := Collect(s, v, found, maxName);
      assert t.keys[..|s.keys|] == t.keys[..|t0.keys|][..|s.keys|];
    }
  }

  /** One step of grouping, seen from a single key k: if before the step
      k's entry holds `before + onLine` (and exists exactly when it was
      there at the start or onLine is non-empty), then after adding a match
      whose regions on k are `hit` it holds `before + (onLine + hit)`. */
  lemma GroupStep(t: MatchStorage, m: Match, k: Key, atStart: bool, before: seq<Region>, onLine: seq<Region>, hit: seq<Region>)
    requires k in t.storage <==> atStart || |onLine| > 0
    requires k in t.storage ==> t.storage[k].regions == before + onLine
    requires !atStart ==> before == []
    requires (if m.key == k then m.regions else []) == hit
    requires |m.regions| > 0
    ensures k in Add(t, m).storage <==> atStart || |onLine + hit| > 0
    ensures k in Add(t, m).storage ==> Add(t, m).storage[k].regions == before + (onLine + hit)
  {
    assert (before + onLine) + hit == before + (onLine + hit);
  }

  /** Matches are grouped per line: after collecting the regions found in
      v, the entry for (v, line) exists exactly when it existed before or a
      region was found on that line, and its regions are the earlier ones
      followed by every region found on that line, in the order found. */
  lemma {:induction false} CollectGroupsByLine(s: MatchStorage, v: View, found: seq<Region>, maxName: Option<int>, line: nat)
    requires Valid(s)
    ensures var t := Collect(s, v, found, maxName);
      var k := Key(v.id, line);
      && (k in t.storage <==> k in s.storage || |OnLine(v, found, line)| > 0)
      && (k in t.storage ==>
            t.storage[k].regions == (if k in s.storage then s.storage[k].regions else []) + OnLine(v, found, line))
    decreases |found|
  {
    if |found| > 0 {
      var init := found[..|found| - 1];
      var last := found[|found| - 1];
      var t0 := Collect(s, v, init, maxName);
      CollectGroupsByLine(s, v, init, maxName, line);
      var k := Key(v.id, line);
      var m := Single(v, last, maxName);
      assert Collect(s, v, found, maxName) == Add(t0, m);
      var before := if k in s.storage then s.storage[k].regions else [];
      var hit := if v.lineOf(last.begin) == line then [last] else [];
      assert OnLine(v, found, line) == OnLine(v, init, line) + hit;
      GroupStep(t0, m, k, k in s.storage, before, OnLine(v, init, line), hit);
    }
  }

  /** Entries of other views are untouched by collecting in v. */
  lemma {:induction false} CollectLeavesOtherViews(s: MatchStorage, v: View, found: seq<Region>, maxName: Option<int>, k: Key)
    requires k.viewId != v.id && k in s.storage
    ensures k in Collect(s, v, found, maxName).storage
    ensures Collect(s, v, found, maxName).storage[k] == s.storage[k]
    decreases |found|
  {
    if |found| > 0 {
      CollectLeavesOtherViews(s, v, found[..|found| - 1], maxName, k);
    }
  }

  /** The regions one view yielded for the pattern. */
  datatype Hits = Hits(view: View, found: seq<Region>)

  /** The searches of every view in turn into one store. */
  function CollectAll(s: MatchStorage, hits: seq<Hits>, maxName: Option<int>): (r: MatchStorage)
    ensures |r.keys| >= |s.keys| && r.keys[..|s.keys|] == s.keys
    ensures s.storage.Keys <= r.storage.Keys
    ensures forall j, i :: 0 <= j < |hits| && 0 <= i < |hits[j].found| ==>
      Key(hits[j].view.id, hits[j].view.lineOf(hits[j].found[i].begin)) in r.storage
    ensures forall k :: k in r.storage && k !in s.storage ==> FoundIn(hits, k)
    decreases |hits|
  {
    if |hits| == 0 then s
    else
      var init := hits[..|hits| - 1];
      var last := hits[|hits| - 1];
      var t := CollectAll(s, init, maxName);
      var r := Collect(t, last.view, last.found, maxName);
      assert r.keys[..|s.keys|] == r.keys[..|t.keys|][..|s.keys|];
      assert forall j :: 0 <= j < |init| ==> init[j] == hits[j];
      assert forall k :: k in r.storage && k !in s.storage ==> FoundIn(hits, k) by {
        forall k | k in r.storage && k !in s.storage
          ensures FoundIn(hits, k)
        {
          FoundInGrows(hits, k, k in t.storage);
        }
      }
      r
  }

  /** A key collected from the front views, or from the last view's hits,
      was found in the whole list. */
  lemma FoundInGrows(hits: seq<Hits>, k: Key, early: bool)
    requires |hits| > 0
    requires early ==> FoundIn(hits[..|hits| - 1], k)
    requires !early ==> k.viewId == hits[|hits| - 1].view.id && |OnLine(hits[|hits| - 1].view, hits[|hits| - 1].found, k.line)| > 0
    ensures FoundIn(hits, k)
  {
    var init := hits[..|hits| - 1];
    var last := hits[|hits| - 1];
    if early {
      var j, i :| 0 <= j < |init| && 0 <= i < |init[j].found| &&
        k == Key(init[j].view.id, init[j].view.lineOf(init[j].found[i].begin));
      assert init[j] == hits[j];
    } else {
      var i := OnLineWitness(last.view, last.found, k.line);
      assert k == Key(hits[|hits| - 1].view.id, hits[|hits| - 1].view.lineOf(hits[|hits| - 1].found[i].begin));
    }
  }

  /** Some view of `hits` yielded a region on k's view and line. */
  ghost predicate FoundIn(hits: seq<Hits>, k: Key)
  {
    exists j, i :: 0 <= j < |hits| && 0 <= i < |hits[j].found| &&
      k == Key(hits[j].view.id, hits[j].view.lineOf(hits[j].found[i].begin))
  }

  /** A region on a line is a region found on that line: the position of
      one of them in `found`. */
  lemma {:induction false} OnLineWitness(v: View, found: seq<Region>, line: nat) returns (i: nat)
    requires |OnLine(v, found, line)| > 0
    ensures i < |found| && v.lineOf(found[i].begin) == line
    decreases |found|
  {
    var last := found[|found| - 1];
    if v.lineOf(last.begin) == line {
      i := |found| - 1;
    } else {
      i := OnLineWitness(v, found[..|found| - 1], line);
    }
  }

  /** No region was found in any view. */
  predicate NothingFound(hits: seq<Hits>)
  {
    forall i :: 0 <= i < |hits| ==> |hits[i].found| == 0
  }

  /** The state a search leaves: the store, and the match jumped to. */
  datatype Outcome = Outcome(store: MatchStorage, jump: Option<Match>)

  /** `run(pattern)`: an empty pattern or an empty list of views returns
      before anything changes; otherwise the store is cleared, refilled
      from every view's hits, and the first entry, if any, is jumped to. */
  function Run(s: MatchStorage, pattern: string, allViews: bool, setting: Option<int>, hits: seq<Hits>): (r: Outcome)
    ensures |pattern| == 0 || |hits| == 0 ==> r == Outcome(s, None)
    ensures |pattern| > 0 && |hits| > 0 ==>
      forall j, i :: 0 <= j < |hits| && 0 <= i < |hits[j].found| ==>
        Key(hits[j].view.id, hits[j].view.lineOf(hits[j].found[i].begin)) in r.store.storage
    ensures |pattern| > 0 && |hits| > 0 ==> forall k :: k in r.store.storage ==> FoundIn(hits, k)
    ensures r.jump.Some? ==>
      && |r.store.keys| > 0 && r.store.keys[0] in r.store.storage
      && r.jump.value == r.store.storage[r.store.keys[0]]
  {
    if |pattern| == 0 || |hits| == 0 then Outcome(s, None)
    else
      var t := CollectAll(Clear(), hits, EffectiveMaxName(allViews, setting));
      if IsEmpty(t) then Outcome(t, None)
      else match At(t, 0)
        case Success(Some(m)) => Outcome(t, Some(m))
        case _ => Outcome(t, None)
  }

  /** Collecting from one view leaves a store with no key only when the
      store had none and the view yielded no region. */
  lemma CollectEmptyIff(s: MatchStorage, v: View, found: seq<Region>, maxName: Option<int>)
    requires Valid(s)
    ensures |Collect(s, v, found, maxName).keys| == 0 <==> |s.keys| == 0 && |found| == 0
  {
    CollectPreservesValid(s, v, found, maxName);
    if |found| > 0 {
      var last := found[|found| - 1];
      var line := v.lineOf(last.begin);
      CollectGroupsByLine(s, v, found, maxName, line);
      assert OnLine(v, found, line) == OnLine(v, found[..|found| - 1], line) + [last];
      assert Key(v.id, line) in Collect(s, v, found, maxName).keys;
    }
  }

  /** Nothing is found in a list of views exactly when nothing is found in
      its front part and in its last view. */
  lemma NothingFoundSplit(hits: seq<Hits>)
    requires |hits| > 0
    ensures NothingFound(hits) <==> NothingFound(hits[..|hits| - 1]) && |hits[|hits| - 1].found| == 0
  {
    var init := hits[..|hits| - 1];
    if NothingFound(init) && |hits[|hits| - 1].found| == 0 {
      forall i | 0 <= i < |hits|
        ensures |hits[i].found| == 0
      {
        if i < |init| {
          assert hits[i] == init[i];
        }
      }
    }
  }

  /** Collecting every view's hits keeps the store valid, only appends
      keys, and leaves it without keys exactly when it had none and no view
      yielded a region. */
  lemma {:induction false} CollectAllGrows(s: MatchStorage, hits: seq<Hits>, maxName: Option<int>)
    requires Valid(s)
    ensures var t := CollectAll(s, hits, maxName);
      && Valid(t)
      && |t.keys| >= |s.keys| && t.keys[..|s.keys|] == s.keys
      && (|t.keys| == 0 <==> |s.keys| == 0 && NothingFound(hits))
    decreases |hits|
  {
    if |hits| > 0 {
      var init := hits[..|hits| - 1];
      var h := hits[|hits| - 1];
      CollectAllGrows(s, init, maxName);
      var t0 := CollectAll(s, init, maxName);
      CollectPreservesValid(t0, h.view, h.found, maxName);
      CollectEmptyIff(t0, h.view, h.found, maxName);
      NothingFoundSplit(hits);
      var t := CollectAll(s, hits, maxName);
      assert t.keys[..|s.keys|] == t.keys[..|t0.keys|][..|s.keys|];
    }
  }

  /** A search with a pattern and at least one view jumps to a match
      exactly when some view yielded a region, and then to the entry listed
      first; the store it leaves is valid. */
  lemma RunJumpsToFirstEntry(s: MatchStorage, pattern: string, allViews: bool, setting: Option<int>, hits: seq<Hits>)
    requires |pattern| > 0 && |hits| > 0
    ensures var o := Run(s, pattern, allViews, setting, hits);
      && Valid(o.store)
      && (o.jump.Some? <==> !NothingFound(hits))
      && (o.jump.Some? ==> o.jump.value == o.store.storage[o.store.keys[0]])
  {
    var t := CollectAll(Clear(), hits, EffectiveMaxName(allViews, setting));
    CollectAllGrows(Clear(), hits, EffectiveMaxName(allViews, setting));
    if |t.keys| > 0 {
      ListedKeysAreStored(t, 0);
    }
  }

  /** An empty pattern, or no view to search, leaves the store as it was
      (the early returns come before the store is cleared). */
  lemma RunWithoutPatternOrViews(s: MatchStorage, pattern: string, allViews: bool, setting: Option<int>, hits: seq<Hits>)
    requires |pattern| == 0 || |hits| == 0
    ensures Run(s, pattern, allViews, setting, hits) == Outcome(s, None)
  {
  }
}

=== FILE: storage.dfy ===
/** The per-window result store (class MatchStorage, match.py:162-189): an
    ordered map from (view, line) to the Match found there, the order being
    the order in which keys were first seen. */
module Storage {
  import opened Wrappers
  import opened Python
  import opened Matches

  /** `storage` maps keys to matches; `keys` lists them in first-seen order. */
  datatype MatchStorage = MatchStorage(storage: map<Key, Match>, keys: seq<Key>)

  /** No key is listed twice. */
  predicate NoDuplicates(ks: seq<Key>)
  {
    forall i, j :: 0 <= i < j < |ks| ==> ks[i] != ks[j]
  }

  /** The store's invariant: `keys` lists each stored key exactly once, and
      each match is stored under its own key. */
  ghost predicate Valid(s: MatchStorage)
  {
    && NoDuplicates(s.keys)
    && (forall k :: k in s.storage <==> k in s.keys)
    && (forall k :: k in s.storage ==> s.storage[k].key == k)
  }

  /** `clear()` (and the constructor): no matches. */
  function Clear(): (r: MatchStorage)
    ensures Valid(r) && |r.keys| == 0
  {
    MatchStorage(map[], [])
  }

  /** `is_empty()`: the map has no entries, which in a valid store means
      that no key is listed. */
  function IsEmpty(s: MatchStorage): (r: bool)
    ensures Valid(s) ==> (r <==> |s.keys| == 0)
  {
    assert Valid(s) && |s.keys| > 0 ==> s.keys[0] in s.storage;
    s.storage == map[]
  }

  /** `add(occ)`: a match on a line already stored is merged into the
      stored one; a match on a new line is stored and its key appended. */
  function Add(s: MatchStorage, occ: Match): (r: MatchStorage)
    ensures occ.key in s.storage ==>
      && r.keys == s.keys
      && r.storage.Keys == s.storage.Keys
      && r.storage[occ.key] == Merge(s.storage[occ.key], occ)
    ensures occ.key !in s.storage ==>
      && r.keys == s.keys + [occ.key]
      && r.storage.Keys == s.storage.Keys + {occ.key}
      && r.storage[occ.key] == occ
    ensures forall k :: k in s.storage && k != occ.key ==> k in r.storage && r.storage[k] == s.storage[k]
    ensures Valid(s) && occ.key in s.storage ==> r.storage[occ.key].key == occ.key
  {
    if occ.key in s.storage then
      MatchStorage(s.storage[occ.key := Merge(s.storage[occ.key], occ)], s.keys)
    else
      MatchStorage(s.storage[occ.key := occ], s.keys + [occ.key])
  }

  /** `storage[index]`: the match under the index-th key. An index at or
      past the end reads as None; otherwise Python's negative indexing
      applies, an index below -len raising IndexError. A listed key with no
      entry reads as None (unreachable in a valid store, see
      ListedKeysAreStored). */
  function At(s: MatchStorage, index: int): (r: Result<Option<Match>, Fault>)
    ensures index >= |s.keys| ==> r == Success(None)
    ensures r.Failure? <==> index < -|s.keys|
    ensures r.Failure? ==> r.error == IndexError
    ensures r.Success? && r.value.Some? ==>
      && -|s.keys| <= index < |s.keys|
      && s.keys[index % |s.keys|] in s.storage
      && r.value.value == s.storage[s.keys[index % |s.keys|]]
  {
    if index >= |s.keys| then Success(None)
    else match Index(|s.keys|, index)
      case None => Failure(IndexError)
      case Some(j) =>
        var key := s.keys[j];
        if key in s.storage then Success(Some(s.storage[key])) else Success(None)
  }

  // ---------------------------------------------------------------------
  // Properties

  /** Adding a match keeps the invariant, and the keys already listed keep
      their positions. */
  lemma AddPreservesValid(s: MatchStorage, occ: Match)
    requires Valid(s)
    ensures Valid(Add(s, occ))
    ensures Add(s, occ).keys[..|s.keys|] == s.keys
  {
    var r := Add(s, occ);
    if occ.key !in s.storage {
      assert occ.key !in s.keys;
      forall i, j | 0 <= i < j < |r.keys|
        ensures r.keys[i] != r.keys[j]
      {
        if j == |s.keys| {
          assert r.keys[i] == s.keys[i];
        }
      }
      forall k
        ensures k in r.storage <==> k in r.keys
      {
        assert k in r.keys <==> k in s.keys || k == occ.key;
      }
    }
  }

  /** Under the invariant every listed key has an entry, so the
      "key does not exist" branch of `storage[index]` cannot be taken: a
      position within [-len, len) always yields the stored match. */
  lemma ListedKeysAreStored(s: MatchStorage, index: int)
    requires Valid(s) && -|s.keys| <= index < |s.keys|
    ensures At(s, index) == Success(Some(s.storage[s.keys[index % |s.keys|]]))
  {
    var j := Index(|s.keys|, index).value;
    assert s.keys[j] in s.keys;
  }

  /** For a non-negative index of a valid store, `storage[index]` is None
      exactly when the index is at or past the number of keys. */
  lemma AtNoneIffPastEnd(s: MatchStorage, index: int)
    requires Valid(s) && index >= 0
    ensures At(s, index).Success?
    ensures At(s, index).value.None? <==> index >= |s.keys|
  {
    if index < |s.keys| {
      ListedKeysAreStored(s, index);
    }
  }

  /** After `clear()` the store is empty and every non-negative lookup
      reads None. */
  lemma ClearedStoreIsEmpty(index: int)
    requires index >= 0
    ensures IsEmpty(Clear())
    ensures At(Clear(), index) == Success(None)
  {
  }
}

=== FILE: wrappers.dfy ===
/** Option and Result, shared by the whole model. */
module Wrappers {

  /** Python's `None` versus a present value. */
  datatype Option<+T> = None | Some(value: T)

  /** A value, or the exception the Python code would raise instead. */
  datatype Result<+R, +E> = Success(value: R) | Failure(error: E)
}
